=== FILE: README.md ===
# CitySearch in Dafny

A model of the search core of `CitySearch`, a small C++ program that keeps
a list of cities with planar coordinates. The program answers two
questions about the list:

- which cities lie within a radius of a reference city, under one of three
  distances;
- how many cities of a result lie north of the reference.

The model covers the parts listed below, with one module per concern:

- `Distances`: exact distance values and their order.
- `Metrics`: the three distance functions and the `norm` index table.
- `Cities`: the city record.
- `Multimap`: the `std::multimap<double, City>` as a key-sorted sequence, and its insertion.
- `Numbers`: the integer part of `std::stod`.
- `Sequences`: a fact about concatenation that the reading proofs use.
- `Ingestion`: the line-pairing loop of `readCityDataFromFile`.
- `Search`: `search` and `countNorthernCities`.
- `Scenarios`: a worked example with three cities around Oslo, computed through.

`getCities` only returns the store. In the model the store is an ordinary
`seq<Entry>` value, so that accessor has no counterpart.

Numbers are integers throughout. The source works in `double`, with a
`float` radius. Any query whose coordinates and radius are rational can be
scaled by a common denominator into an integer query, and the scaled query
keeps the same result set and order. Rounding is the only thing lost.

Distances are exact. Chebyshev and Manhattan distances are integers
(`Plain`). A Euclidean distance is kept as the square root of an integer
radicand (`Root`). Comparison (`Le`) compares the values denoted, so
`Root(25)` equals `Plain(5)`.

A search result is keyed by distance and sorted, as the multimap is. The
model proves that the result is sorted and that it holds exactly the right
entries, as a multiset. It does not prove an order among entries whose
keys are equal; see "Left out".

The model keeps the following behaviours of the code, which a reader of
the file format might not expect:

- **Negative x coordinates cannot be read.** A coordinate line is split at
  its first `-`. A line such as `-1 - 2` therefore leaves nothing to
  convert before the separator, and reading fails
  (`Scenarios.SampleFileRejected`).
- **A trailing name line is ignored.** A name line with no coordinate line
  after it is dropped without error.
- **A negative radius is not rejected.** It yields an empty result. Only
  the interactive shell, which is not modelled, refuses it.
- **Empty lines in name position are skipped.** A name line is taken only
  while no name is pending. An empty line leaves no name pending, so the
  next line is read as a name.
- **Reading appends.** The cities read are added to the existing store.

## Model

| member | source | states |
|---|---|---|
| Distances.LeTransitive | src/CitySearch.cpp:142-145 | comparing distances, as the filter and the multimap do, is transitive across plain values and square roots alike |
| Distances.BoundOfDistance | src/CitySearch.cpp:144 | a non-negative distance is within a bound only if the bound is non-negative; a zero distance is within every non-negative bound |
| Metrics.L2Distance | src/CitySearch.cpp:21-23 | the Euclidean distance is a non-negative square root and is zero exactly when the two points coincide; its value is pinned by `EuclideanFromLegs` |
| Metrics.LInfDistance | src/CitySearch.cpp:34-36 | the Chebyshev distance is the larger of the absolute coordinate differences: at least each, equal to one, and zero exactly at coinciding points |
| Metrics.L1Distance | src/CitySearch.cpp:47-49 | the Manhattan distance is non-negative, bounds each absolute coordinate difference, and is zero exactly at coinciding points; its value is pinned by `ManhattanFromLegs` |
| Metrics.DistanceFunc | src/CitySearch.cpp:133-139 | whichever norm is chosen, the distance is non-negative and zero exactly at coinciding points |
| Metrics.NormAt | src/CitySearch.cpp:133-139 | the table has an entry for indices 0, 1 and 2 and no other; the entry at an index carries that index |
| Metrics.NormAtIndexOf | src/CitySearch.cpp:133-139 | each norm sits in the table at its own index |
| Metrics.NormOrder | src/CitySearch.cpp:21-49 | for any two points, Chebyshev <= Euclidean <= Manhattan <= 2 * Chebyshev |
| Metrics.EuclideanFromLegs | src/CitySearch.cpp:21-23 | Pythagoras: the squared Euclidean distance is the sum of the squared lengths of the two axis-aligned legs through the corner (x1, y0), each leg measured by the Chebyshev distance |
| Metrics.ManhattanFromLegs | src/CitySearch.cpp:47-49 | the Manhattan distance is the sum of the lengths of the two axis-aligned legs through the corner (x1, y0), each measured by the Chebyshev distance |
| Metrics.EuclideanWithin | src/CitySearch.cpp:21-23 | for a non-negative radius r, the Euclidean distance is within r exactly when the sum of the squared coordinate gaps is at most r * r |
| Metrics.DistanceSymmetric | src/CitySearch.cpp:21-49 | every norm gives the same distance from either end |
| Multimap.Insert | src/CitySearch.cpp:97 | a multimap insertion adds exactly one occurrence of the entry and keeps all others |
| Multimap.InsertSorted | src/CitySearch.cpp:97 | insertion keeps the entries ordered by key |
| Multimap.InsertAfterAll | src/CitySearch.cpp:97 | an entry whose key is at least every stored key goes at the end |
| Multimap.InsertAll | src/CitySearch.cpp:148-154 | inserting a batch adds exactly its entries, as a multiset, and nothing else; each entry goes after the equal keys already present, unlike the source's hinted insertion |
| Multimap.InsertAllSorted | src/CitySearch.cpp:148-154 | inserting a batch into a sorted multimap leaves it sorted |
| Numbers.Convert | src/CitySearch.cpp:85-86 | text of only white space converts to nothing; a successful conversion found, after the leading white space, a digit or a sign and a digit; a negative result was written with a leading minus; the conversion fails (the source's `std::invalid_argument`) exactly when, after the white space and an optional sign, there is neither a digit nor the start of a `.5`, `inf` or `nan` literal |
| Numbers.ConvertAfterSpaces | src/CitySearch.cpp:85-86 | white space in front of a literal does not change what it converts to |
| Numbers.ConvertMinus | src/CitySearch.cpp:85-86 | a minus sign in front of a literal negates the value converted |
| Numbers.ConvertPlus | src/CitySearch.cpp:85-86 | a plus sign in front of a literal leaves the value converted unchanged, so `+5` gives 5 |
| Numbers.ConvertDecimal | src/CitySearch.cpp:85-86 | converting an integer written in decimal gives the integer back, whatever text follows, unless that text extends the literal: a digit, a `.`, an exponent (`e` or `E` with a digit after an optional sign) or, after a lone `0`, a hexadecimal part (`x` or `X` with a hexadecimal digit) |
| Ingestion.SplitAtFirst | src/CitySearch.cpp:79-81 | the line is the text before the first separator, the separator, and the rest; the first part holds no separator; without a separator everything is the first part |
| Ingestion.SplitAtFirstOf | src/CitySearch.cpp:79-81 | splitting a line built from a separator-free part, a separator and a tail gives the part and the tail back |
| Ingestion.ParseCoordinates | src/CitySearch.cpp:77-94 | a line without `-`, or one that starts with `-`, fails to convert; any accepted line contains `-` |
| Ingestion.ParseRendered | src/CitySearch.cpp:54-94 | a line `<x> - <y>`, in the layout the file format documents, written from a non-negative x and any y, parses back to (x, y) |
| Ingestion.ParseCoordinateLine | src/CitySearch.cpp:77-94 | a line `<x><gap>-<lead><y><tail>` gives (x, y) whenever the gap holds no `-` and does not extend x, the lead is white space, and the tail does not extend y; neither lead nor tail holds a line break. So the spaces of `3 - 4` are skipped, and trailing text such as the `x` of `3-4x` is ignored |
| Ingestion.InsertUnkeyed | src/CitySearch.cpp:97 | a city stored under key 0 among keys that are all 0 goes after the cities already stored |
| Ingestion.ReadLines | src/CitySearch.cpp:72-99 | reading never removes cities, stores at most one city per two lines, and keeps every key 0 |
| Ingestion.ReadCityData | src/CitySearch.cpp:72-99 | the cities read are appended to the store, at most one per two lines, all under key 0 |
| Ingestion.ReadPair | src/CitySearch.cpp:72-99 | a non-empty name followed by any coordinate line that parses appends that city, with the parsed coordinates, under key 0 to a store whose keys are all 0, and reading carries on after the two lines with no name pending |
| Ingestion.ReadPairs | src/CitySearch.cpp:72-99 | any run of name/coordinate pairs whose lines parse, whatever their layout, as long as each coordinate line parses, stores one city per pair in file order, and reading carries on after them unchanged |
| Ingestion.ReadPairsFile | src/CitySearch.cpp:54-99 | a file made only of such pairs, read into an empty store, gives exactly the cities of its pairs, in file order, under key 0 |
| Ingestion.RecordsAsPairs | src/CitySearch.cpp:54-94 | the lines written for records are name/coordinate pairs that parse, and they store the records' cities |
| Ingestion.ReadCompact | src/CitySearch.cpp:54-99 | records written in the compact layout `<x>-<y>` load exactly as the spaced layout does: the records' cities, in order, under key 0 |
| Ingestion.ReadRendered | src/CitySearch.cpp:72-99 | complete records in the spaced layout are stored in file order, and reading carries on after them unchanged |
| Ingestion.ReadRecords | src/CitySearch.cpp:54-99 | reading N records written as name lines and `<x> - <y>` lines into an empty store gives exactly those N cities, in file order, under key 0 |
| Ingestion.StopsAtBadLine | src/CitySearch.cpp:84-94 | after any complete name/coordinate pairs, a name followed by a coordinate line that does not parse makes reading fail with that line's error |
| Ingestion.TrailingNameIgnored | src/CitySearch.cpp:72-75 | after any complete name/coordinate pairs, a final name line with no coordinate line adds nothing and raises no error |
| Ingestion.LeadingMinusRejected | src/CitySearch.cpp:80-89 | after any complete pairs, a coordinate line starting with `-` stops reading with a conversion error on that line |
| Ingestion.MissingSeparatorRejected | src/CitySearch.cpp:80-89 | after any complete pairs, a coordinate line without `-` stops reading with a conversion error on that line |
| Ingestion.BlankLinesSkipped | src/CitySearch.cpp:73-75 | empty lines met while no name is pending change nothing |
| Search.DistanceTo | src/CitySearch.cpp:143 | the distance to a city is non-negative and zero exactly when the city sits on the reference point |
| Search.Nearby | src/CitySearch.cpp:142-145 | the filter keeps a stored entry if and only if its distance is within the radius, the boundary included; each kept entry occurs exactly as often as in the store, and every other entry not at all |
| Search.Keyed | src/CitySearch.cpp:148-154 | one output entry per input entry, in order: the i-th output is the i-th input's city keyed by its distance from the reference |
| Search.Search | src/CitySearch.cpp:125-157 | the result is sorted by key, no longer than the store, and the same multiset as the re-keyed filtered entries; every key is that city's distance and within the radius; a stored city is found if and only if it is within the radius |
| Search.SearchMonotonic | src/CitySearch.cpp:142-145 | a larger radius finds everything a smaller one finds, as a multiset |
| Search.CenterFound | src/CitySearch.cpp:142-145 | a stored city on the reference point is found at distance 0 by every query with a non-negative radius |
| Search.NegativeRadiusFindsNothing | src/CitySearch.cpp:144 | a negative radius gives an empty result |
| Search.NormsNest | src/CitySearch.cpp:133-145 | for the same radius, Manhattan's result lies inside Euclidean's, and Euclidean's inside Chebyshev's |
| Search.CountNorthernCities | src/CitySearch.cpp:168-173 | the count is at most the number of entries; it is 0 exactly when no entry is north of the reference, and it equals the number of entries exactly when all are |
| Search.CountIsPositionCount | src/CitySearch.cpp:168-173 | the count is the number of positions whose city has a y strictly smaller than the reference's |
| Search.CountAppend | src/CitySearch.cpp:168-173 | counting a concatenation adds the two counts |
| Search.CountSubMultiset | src/CitySearch.cpp:168-173 | the count ignores order, and a sub-multiset never counts more |
| Search.NorthernCountMonotonic | src/CitySearch.cpp:168-173 | the northern count of a search result never shrinks as the radius grows |
| Scenarios.OsloBergenThenBadLine | src/CitySearch.cpp:84-94 | after the Oslo and Bergen lines, a name and any coordinate line that does not parse make reading fail with that line's error |
| Scenarios.SampleFileRejected | src/CitySearch.cpp:80-89 | a three-city file with Stavanger at `-1 - 2` is refused at that line |
| Scenarios.TrailingLetterIgnored | src/CitySearch.cpp:80-86 | `3-4x` gives (3, 4): an `x` after a digit other than a lone `0` ends the number |
| Scenarios.TrailingExponentMarkIgnored | src/CitySearch.cpp:80-86 | `3-4e` gives (3, 4): an `e` with no digit after it ends the number |
| Scenarios.WordRejected | src/CitySearch.cpp:84-89 | `north-4` fails with a conversion error, because `north` starts no number |
| Scenarios.ExponentUnsupported | src/CitySearch.cpp:84-89 | the model refuses `3-4e5` as an unsupported literal, because its y part has an exponent; the source converts it to 400000 and stores the city |
| Scenarios.HexadecimalUnsupported | src/CitySearch.cpp:84-89 | the model refuses `0x1A-4` as an unsupported literal, because its x part is hexadecimal; the source converts it to 26 and stores the city |
| Scenarios.NanUnsupported | src/CitySearch.cpp:84-89 | the model refuses `3-nan` as an unsupported literal, because its y part is a NaN; the source converts it and stores the city |
| Scenarios.SampleLoads | src/CitySearch.cpp:72-99 | the same file with Stavanger at `1 - 2` loads as Oslo, Bergen, Stavanger under key 0 |
| Scenarios.CompactSampleLoads | src/CitySearch.cpp:72-99 | the same file written compactly, `0-0`, `3-4`, `1-2`, loads to the same three cities |
| Scenarios.SampleSearch | src/CitySearch.cpp:125-157 | a Euclidean search of radius 5 around (0, 0) gives Oslo (0), Stavanger (sqrt 5), Bergen (5), with the boundary city included |
| Scenarios.SampleNorthernCount | src/CitySearch.cpp:168-173 | no city of that result lies north of (0, 0) |

## Left out

- File opening and closing and the `ifstream` are left out. Ingestion takes the lines `std::getline` would produce.
- The interactive shell in `src/main.cpp` is left out: prompts, input helpers, city lookup by name, and printing. Its guards (`radius >= 0` and `0 <= norm <= 2`) appear only as `NormAt` and `NegativeRadiusFindsNothing`.
- Floating-point arithmetic is left out: `double` and `float` rounding, `std::sqrt` and `std::pow`, and the float/double comparison of the radius. Coordinates and radius are integers; see the scaling argument above.
- Metrics.L2Distance: returns the exact square root (as its radicand), not the rounded `double` the source computes.
- Numbers.Convert: models integer literals only. Leading white space, a sign and a digit run are read. Text after the digits that cannot extend the literal is ignored, as `std::stod` ignores it, so `4x` and `4e` give 4. The following give `NotModelled`, which reading reports as `UnsupportedLiteral`, where the source converts them: a `.` after the digits (even `5.` or `5.0`, whose value is whole); an exponent, meaning `e` or `E` with a digit after an optional sign (even `4e5`); a hexadecimal number, meaning `0x` or `0X` with a hexadecimal digit (even `0x1A`); a leading `.` with a digit; `inf` or `nan` in any case. Any other text with no digit where a number belongs gives `NoConversion`, as `std::stod` throws on it. Out-of-range values are not modelled.
- Scenarios.ExponentUnsupported: shows `3-4e5`, which the model refuses and the source accepts. It records where the integer-only conversion above stops, not a behaviour of the source.
- Scenarios.HexadecimalUnsupported: shows `0x1A-4`, which the model refuses and the source accepts. It records where the integer-only conversion above stops, not a behaviour of the source.
- Scenarios.NanUnsupported: shows `3-nan`, which the model refuses and the source accepts. It records where the integer-only conversion above stops, not a behaviour of the source.
- Search.Search: does not state the order among entries with equal keys. The source inserts with a moving `std::inserter` hint, and that order depends on the library's hinted insertion. The model inserts each entry after the equal keys already present; the contracts claim only sortedness and the multiset.
- Ingestion.ReadCityData: all-or-nothing. On an error it returns the error, and the cities stored before the bad line are not kept. The source leaves them in the store.
- Ingestion.ParseCoordinates: models the stream check after conversion (text left after the y part) as a line break inside the y part. Lines from `std::getline` never hold one, so that branch is unreachable in practice.
- Search.CountNorthernCities: returns an unbounded natural number. The source's `int` result could wrap past 2^31 - 1 entries.
- The transform lambda in `search` has a branch with no return value. The filter before it makes that branch unreachable, and `Search.Keyed` has no such branch.

=== FILE: cities.dfy ===
/** The stored values: a named city at a point of the plane. */
module Cities {

  /** A city: its name and its (x, y) coordinates. A smaller `y` lies
      further north. */
  datatype City = City(name: string, x: int, y: int)
}

=== FILE: distances.dfy ===
/** Exact values of the distances the search computes in `double`.

    The Euclidean distance is a square root and is generally irrational, so
    it is kept symbolically as `Root(radicand)`; the other two norms give a
    `Plain` number. `Le` compares the numbers the two forms denote, which is
    all the search ever does with a distance. */
module Distances {

  /** `Plain(v)` denotes `v`; `Root(r)` denotes the non-negative square root
      of `r` (read as 0 when `r` is negative). */
  datatype Distance = Plain(value: int) | Root(radicand: int)
  {
    /** The value is a well-formed distance: at least 0, with a square root
        taken only of a non-negative number. */
    predicate NonNegative() {
      match this
      case Plain(v) => 0 <= v
      case Root(r) => 0 <= r
    }

    /** The value denotes exactly 0. */
    predicate IsZero() {
      match this
      case Plain(v) => v == 0
      case Root(r) => r <= 0
    }
  }

  /** The number denoted by `a` is at most the one denoted by `b`. */
  predicate Le(a: Distance, b: Distance) {
    match (a, b)
    case (Plain(x), Plain(y)) => x <= y
    case (Plain(x), Root(t)) => x <= 0 || x * x <= t
    case (Root(s), Plain(y)) => 0 <= y && s <= y * y
    case (Root(s), Root(t)) => s <= 0 || s <= t
  }

  /** The number denoted by `a` is strictly below the one denoted by `b`. */
  predicate Lt(a: Distance, b: Distance) {
    !Le(b, a)
  }

  /** Squaring preserves and reflects the order of non-negative numbers. */
  lemma SquareOrder(a: int, b: int)
    requires 0 <= a && 0 <= b
    ensures a <= b <==> a * a <= b * b
  {
    if a <= b {
      assert a * a <= a * b <= b * b;
    } else {
      assert b * b <= b * a < a * a;
    }
  }

  /** Any two distances are comparable. */
  lemma LeTotal(a: Distance, b: Distance)
    ensures Le(a, b) || Le(b, a)
  {
  }

  /** `Le` is transitive, so together with `LeTotal` it is a total preorder. */
  lemma LeTransitive(a: Distance, b: Distance, c: Distance)
    requires Le(a, b) && Le(b, c)
    ensures Le(a, c)
  {
    match (a, b, c)
    case (Plain(x), Plain(y), Root(t)) =>
      if 0 < x {
        SquareOrder(x, y);
      }
    case (Root(s), Plain(y), Plain(z)) =>
      SquareOrder(y, z);
    case (Plain(x), Root(t), Plain(z)) =>
      if 0 < x {
        SquareOrder(x, z);
      }
    case _ =>
  }

  /** A well-formed distance is within a plain bound only when the bound is
      at least 0, and a zero distance is within every such bound. */
  lemma BoundOfDistance(d: Distance, bound: int)
    requires d.NonNegative()
    ensures Le(d, Plain(bound)) ==> 0 <= bound
    ensures d.IsZero() ==> (Le(d, Plain(bound)) <==> 0 <= bound)
  {
  }
}

=== FILE: ingestion.dfy ===
/** Reading the city list: a sequence of lines alternating a city name and
    its coordinates written `<x>-<y>`. The file itself is not modelled; the
    lines are given as they come out of `std::getline`. */
module Ingestion {
  import opened Results
  import opened Distances
  import opened Cities
  import opened Multimap
  import opened Numbers
  import opened Sequences

  /** Why reading stopped, with the coordinate line that caused it. */
  datatype ReadError =
    | ConversionFailed(line: string)      // `std::stod` found no number to convert
    | IncorrectInformation(line: string)  // text was left after the y coordinate
    | UnsupportedLiteral(line: string)    // a floating-point literal outside the model

  /** Every key is the placeholder 0 the reader stores cities under. */
  predicate AllKeysZero(s: seq<Entry>) {
    forall i :: 0 <= i < |s| ==> s[i].key == Plain(0)
  }

  /** `std::getline` with delimiter `sep`, then the rest of the line: the text
      before the first `sep`, and the text after it (empty when `sep` does
      not occur). */
  function SplitAtFirst(line: string, sep: char): (parts: (string, string))
    ensures sep in line ==> line == parts.0 + [sep] + parts.1 && sep !in parts.0
    ensures sep !in line ==> parts.0 == line && parts.1 == ""
  {
    if |line| == 0 then ("", "")
    else if line[0] == sep then ("", line[1..])
    else
      var (before, after) := SplitAtFirst(line[1..], sep);
      assert line == [line[0]] + line[1..];
      ([line[0]] + before, after)
  }

  /** Splitting at the first `sep` finds the `sep` that follows a part
      without one. */
  lemma {:induction false} SplitAtFirstOf(before: string, sep: char, after: string)
    requires sep !in before
    ensures SplitAtFirst(before + [sep] + after, sep) == (before, after)
  {
    var line := before + [sep] + after;
    if |before| == 0 {
      assert line[0] == sep && line[1..] == after;
    } else {
      assert line[0] == before[0] && line[0] != sep;
      assert line[1..] == before[1..] + [sep] + after;
      SplitAtFirstOf(before[1..], sep, after);
      assert [before[0]] + before[1..] == before;
    }
  }

  /** The two coordinates of a coordinate line. The line is split at its
      first `-`; each part is converted, x first; the y part ends at a line
      break, and text after that break is an error. */
  function ParseCoordinates(line: string): (r: Result<(int, int), ReadError>)
    ensures '-' !in line ==> r == Failure(ConversionFailed(line))
    ensures |line| > 0 && line[0] == '-' ==> r == Failure(ConversionFailed(line))
    ensures r.Success? ==> '-' in line
  {
    var parts := SplitAtFirst(line, '-');
    var rest := parts.1;
    var cx, cy := Convert(parts.0), Convert(SplitAtFirst(rest, '\n').0);
    if cx.NoConversion? || cy.NoConversion? then Failure(ConversionFailed(line))
    else if cx.NotModelled? || cy.NotModelled? then Failure(UnsupportedLiteral(line))
    else if '\n' in rest then Failure(IncorrectInformation(line))
    else Success((cx.value, cy.value))
  }

  /** Storing a city under key 0 in a store whose keys are all 0 appends
      it. */
  lemma InsertUnkeyed(store: seq<Entry>, city: City)
    requires AllKeysZero(store)
    ensures Insert(store, Entry(Plain(0), city)) == store + [Entry(Plain(0), city)]
    ensures AllKeysZero(store + [Entry(Plain(0), city)])
  {
    InsertAfterAll(store, Entry(Plain(0), city));
  }

  /** The reading loop. `pending` is the name read so far and not yet
      stored; a line read while no name is pending is a name (an empty one
      leaves no name pending), any other line is that name's coordinates.
      Each city is inserted under key 0. */
  function ReadLines(store: seq<Entry>, pending: string, lines: seq<string>): (r: Result<seq<Entry>, ReadError>)
    ensures r.Success? ==> |store| <= |r.value|
    ensures r.Success? ==> 2 * (|r.value| - |store|) <= |lines| + (if pending == "" then 0 else 1)
    ensures AllKeysZero(store) && r.Success? ==> store <= r.value && AllKeysZero(r.value)
    decreases |lines|
  {
    if |lines| == 0 then Success(store)
    else if pending == "" then ReadLines(store, lines[0], lines[1..])
    else
      var parsed := ParseCoordinates(lines[0]);
      if parsed.Failure? then Failure(parsed.error)
      else
        var city := City(pending, parsed.value.0, parsed.value.1);
        var next := Insert(store, Entry(Plain(0), city));
        assert AllKeysZero(store) ==> next == store + [Entry(Plain(0), city)] && AllKeysZero(next) by {
          if AllKeysZero(store) {
            InsertUnkeyed(store, city);
          }
        }
        ReadLines(next, "", lines[1..])
  }

  /** `readCityDataFromFile` on the lines of a file: the cities read are
      added to `store`. */
  function ReadCityData(store: seq<Entry>, lines: seq<string>): (r: Result<seq<Entry>, ReadError>)
    ensures r.Success? ==> 2 * (|r.value| - |store|) <= |lines|
    ensures AllKeysZero(store) && r.Success? ==> store <= r.value && AllKeysZero(r.value)
  {
    ReadLines(store, "", lines)
  }

  /** A city as a well-formed file writes it. The x coordinate is never
      negative: a leading `-` would be taken for the separator. */
  datatype Record = Record(name: string, x: nat, y: int)

  /** The two lines of one record: the name, then the coordinates in the
      documented layout `x - y`, with a space on each side of the separator. */
  function RecordLines(rec: Record): seq<string> {
    [rec.name, Decimal(rec.x) + " - " + Decimal(rec.y)]
  }

  /** The lines of a file holding `recs` in order. */
  function Render(recs: seq<Record>): (lines: seq<string>)
    ensures |lines| == 2 * |recs|
  {
    if |recs| == 0 then [] else RecordLines(recs[0]) + Render(recs[1..])
  }

  /** The entries the reader stores for `recs`. */
  function Stored(recs: seq<Record>): (s: seq<Entry>)
    ensures |s| == |recs|
    ensures forall i :: 0 <= i < |recs| ==> s[i] == Entry(Plain(0), City(recs[i].name, recs[i].x, recs[i].y))
  {
    if |recs| == 0 then []
    else [Entry(Plain(0), City(recs[0].name, recs[0].x, recs[0].y))] + Stored(recs[1..])
  }

  predicate NamesPresent(recs: seq<Record>) {
    forall i :: 0 <= i < |recs| ==> recs[i].name != ""
  }

  /** A line whose parts before and after its first `-` both convert, with
      no line break after the `-`, gives those two numbers. */
  lemma ParseSplitLine(line: string, xText: string, yText: string, x: int, y: int)
    requires SplitAtFirst(line, '-') == (xText, yText)
    requires SplitAtFirst(yText, '\n') == (yText, "")
    requires Convert(xText) == Converted(x) && Convert(yText) == Converted(y)
    ensures ParseCoordinates(line) == Success((x, y))
  {
  }

  /** A rendered coordinate line converts back to its coordinates. */
  lemma ParseRendered(x: nat, y: int)
    ensures ParseCoordinates(Decimal(x) + " - " + Decimal(y)) == Success((x, y))
  {
    var space := " ";
    assert space[0] == ' ' && !IsDigit(' ') && '-' !in space && '\n' !in space;
    assert AllSpaces(space);
    ParseCoordinateLine(x, space, space, y, "");
    SpacedSeparator(Decimal(x), Decimal(y));
  }

  /** The spaced separator of a record line, written in parts. */
  lemma SpacedSeparator(a: string, b: string)
    ensures (a + " ") + "-" + (" " + (b + "")) == a + " - " + b
  {
    assert b + "" == b;
    assert (a + " ") + "-" + (" " + b) == a + (" " + "-" + " ") + b;
  }

  /** A decimal numeral holds no line break. */
  lemma NoBreakInDecimal(i: int)
    ensures '\n' !in Decimal(i)
  {
    var s := Decimal(i);
    assert !IsDigit('\n');
    if i < 0 {
      assert s == [s[0]] + s[1..];
    }
  }

  /** A coordinate line `<x><gap>-<lead><y><tail>` gives (x, y). The x part
      may be followed by text that does not extend it, such as the space in
      `3 - 4`; the y part may be preceded by white space, which `std::stod`
      skips, and followed by text that does not extend it, such as the `x`
      in `3-4x`, which `std::stod` ignores. */
  lemma ParseCoordinateLine(x: nat, gap: string, lead: string, y: int, tail: string)
    requires '-' !in gap && !ExtendsLiteral(DigitsOf(x), gap)
    requires AllSpaces(lead) && '\n' !in lead
    requires !ExtendsLiteral(DigitsOf(Abs(y)), tail) && '\n' !in tail
    ensures ParseCoordinates((Decimal(x) + gap) + "-" + (lead + (Decimal(y) + tail))) == Success((x, y))
  {
    XPart(x, gap);
    YPart(lead, y, tail);
    ParseParts(Decimal(x) + gap, lead + (Decimal(y) + tail), x, y);
  }

  /** The x part of a coordinate line: a natural number and text that does
      not extend it. */
  lemma XPart(x: nat, gap: string)
    requires '-' !in gap && !ExtendsLiteral(DigitsOf(x), gap)
    ensures Convert(Decimal(x) + gap) == Converted(x) && '-' !in Decimal(x) + gap
  {
    NoMinusInNatural(x);
    ConvertDecimal(x, gap);
  }

  /** The y part of a coordinate line: white space, a number and text that
      does not extend it. */
  lemma YPart(lead: string, y: int, tail: string)
    requires AllSpaces(lead) && '\n' !in lead
    requires !ExtendsLiteral(DigitsOf(Abs(y)), tail) && '\n' !in tail
    ensures Convert(lead + (Decimal(y) + tail)) == Converted(y) && '\n' !in lead + (Decimal(y) + tail)
  {
    NoBreakInDecimal(y);
    ConvertAfterSpaces(lead, Decimal(y) + tail);
    ConvertDecimal(y, tail);
  }

  /** A line made of an x part without `-`, a `-`, and a y part without a
      line break gives the two parts' values. */
  lemma ParseParts(xText: string, yText: string, x: int, y: int)
    requires '-' !in xText && '\n' !in yText
    requires Convert(xText) == Converted(x) && Convert(yText) == Converted(y)
    ensures ParseCoordinates(xText + ['-'] + yText) == Success((x, y))
  {
    SplitAtFirstOf(xText, '-', yText);
    ParseSplitLine(xText + ['-'] + yText, xText, yText, x, y);
  }

  /** A natural number's decimal form holds no `-`. */
  lemma NoMinusInNatural(x: nat)
    ensures '-' !in Decimal(x)
  {
    assert !IsDigit('-');
  }

  /** The lines of a file holding `pairs` in order: each pair is a name and
      the coordinate line written after it, in whatever layout. */
  function Lines(pairs: seq<(string, string)>): (lines: seq<string>)
    ensures |lines| == 2 * |pairs|
  {
    if |pairs| == 0 then [] else [pairs[0].0, pairs[0].1] + Lines(pairs[1..])
  }

  /** Every pair has a name and a coordinate line that parses. */
  predicate PairsParse(pairs: seq<(string, string)>) {
    forall i :: 0 <= i < |pairs| ==> pairs[i].0 != "" && ParseCoordinates(pairs[i].1).Success?
  }

  /** The entries the reader stores for `pairs`: each name with the
      coordinates its line parses to, under key 0. */
  function StoredPairs(pairs: seq<(string, string)>): (s: seq<Entry>)
    requires PairsParse(pairs)
    ensures |s| == |pairs|
    ensures forall i :: 0 <= i < |pairs| ==>
              var p := ParseCoordinates(pairs[i].1).value;
              s[i] == Entry(Plain(0), City(pairs[i].0, p.0, p.1))
  {
    if |pairs| == 0 then []
    else
      var p := ParseCoordinates(pairs[0].1).value;
      [Entry(Plain(0), City(pairs[0].0, p.0, p.1))] + StoredPairs(pairs[1..])
  }

  /** Reading a name and a coordinate line that parses stores the city at
      the end of a store whose keys are all 0. */
  lemma ReadPair(store: seq<Entry>, name: string, line: string, rest: seq<string>)
    requires AllKeysZero(store) && name != "" && ParseCoordinates(line).Success?
    ensures var p := ParseCoordinates(line).value;
              ReadLines(store, "", [name, line] + rest)
              == ReadLines(store + [Entry(Plain(0), City(name, p.0, p.1))], "", rest)
  {
    var p := ParseCoordinates(line).value;
    var lines := [name, line] + rest;
    var e := Entry(Plain(0), City(name, p.0, p.1));
    assert lines[0] == name && lines[1..][0] == line && lines[1..][1..] == rest;
    InsertAfterAll(store, e);
    assert ReadLines(store, name, lines[1..]) == ReadLines(store + [e], "", rest);
  }

  /** The lines of a non-empty list of pairs start with its first pair. */
  lemma LinesFirst(pairs: seq<(string, string)>, rest: seq<string>)
    requires |pairs| > 0
    ensures Lines(pairs) + rest == [pairs[0].0, pairs[0].1] + (Lines(pairs[1..]) + rest)
  {
    AppendAssociative([pairs[0].0, pairs[0].1], Lines(pairs[1..]), rest);
  }

  /** The entries of a non-empty list of pairs start with its first pair's. */
  lemma StoredPairsFirst(store: seq<Entry>, pairs: seq<(string, string)>)
    requires |pairs| > 0 && PairsParse(pairs)
    ensures store + [StoredPairs(pairs)[0]] + StoredPairs(pairs[1..]) == store + StoredPairs(pairs)
  {
    var s := StoredPairs(pairs);
    assert s == [s[0]] + StoredPairs(pairs[1..]);
    AppendAssociative(store, [s[0]], StoredPairs(pairs[1..]));
  }

  /** Reading complete name/coordinate pairs, in any layout the conversion
      accepts, stores one city per pair, in file order, under key 0, and
      then carries on with the lines after. */
  lemma {:induction false} ReadPairs(store: seq<Entry>, pairs: seq<(string, string)>, rest: seq<string>)
    requires AllKeysZero(store) && PairsParse(pairs)
    ensures ReadLines(store, "", Lines(pairs) + rest) == ReadLines(store + StoredPairs(pairs), "", rest)
    decreases |pairs|
  {
    if |pairs| == 0 {
      assert Lines(pairs) + rest == rest;
      assert store + StoredPairs(pairs) == store;
    } else {
      var p := ParseCoordinates(pairs[0].1).value;
      var e := Entry(Plain(0), City(pairs[0].0, p.0, p.1));
      var later := Lines(pairs[1..]) + rest;
      var mid := store + [e];
      LinesFirst(pairs, rest);
      ReadPair(store, pairs[0].0, pairs[0].1, later);
      assert AllKeysZero(mid) by {
        InsertUnkeyed(store, City(pairs[0].0, p.0, p.1));
      }
      assert PairsParse(pairs[1..]);
      ReadPairs(mid, pairs[1..], rest);
      StoredPairsFirst(store, pairs);
    }
  }

  /** A file of N complete name/coordinate pairs gives exactly those N
      cities, in file order, each under key 0. */
  lemma ReadPairsFile(pairs: seq<(string, string)>)
    requires PairsParse(pairs)
    ensures ReadCityData([], Lines(pairs)) == Success(StoredPairs(pairs))
  {
    ReadPairs([], pairs, []);
    assert Lines(pairs) + [] == Lines(pairs);
    assert [] + StoredPairs(pairs) == StoredPairs(pairs);
  }

  /** The name/coordinate pairs of records whose coordinate lines put `sep`
      between x and y: `" - "` is the spaced layout `Render` writes, `"-"`
      the compact one. */
  function RecordPairs(recs: seq<Record>, sep: string): (pairs: seq<(string, string)>)
    ensures |pairs| == |recs|
  {
    seq(|recs|, i requires 0 <= i < |recs| => (recs[i].name, Decimal(recs[i].x) + sep + Decimal(recs[i].y)))
  }

  /** Records, written as pairs, keep their lines, parse, and store the
      records' cities. */
  lemma RecordsAsPairs(recs: seq<Record>)
    requires NamesPresent(recs)
    ensures Lines(RecordPairs(recs, " - ")) == Render(recs)
    ensures PairsParse(RecordPairs(recs, " - "))
    ensures StoredPairs(RecordPairs(recs, " - ")) == Stored(recs)
  {
    RecordPairLines(recs);
    RecordPairsParse(recs);
    var s, t := StoredPairs(RecordPairs(recs, " - ")), Stored(recs);
    assert |s| == |t|;
    assert forall i :: 0 <= i < |s| ==> s[i] == t[i];
  }

  /** The pairs of records are written as the records' lines. */
  lemma {:induction false} RecordPairLines(recs: seq<Record>)
    ensures Lines(RecordPairs(recs, " - ")) == Render(recs)
    decreases |recs|
  {
    if |recs| > 0 {
      var pairs := RecordPairs(recs, " - ");
      assert [pairs[0].0, pairs[0].1] == RecordLines(recs[0]);
      assert pairs[1..] == RecordPairs(recs[1..], " - ");
      RecordPairLines(recs[1..]);
      assert Lines(pairs) == [pairs[0].0, pairs[0].1] + Lines(pairs[1..]);
    }
  }

  /** Each coordinate line of a record parses to the record's coordinates. */
  lemma RecordPairsParse(recs: seq<Record>)
    requires NamesPresent(recs)
    ensures PairsParse(RecordPairs(recs, " - "))
    ensures forall i :: 0 <= i < |recs| ==> ParseCoordinates(RecordPairs(recs, " - ")[i].1) == Success((recs[i].x, recs[i].y))
  {
    var pairs := RecordPairs(recs, " - ");
    forall i | 0 <= i < |recs|
      ensures ParseCoordinates(pairs[i].1) == Success((recs[i].x, recs[i].y))
    {
      ParseRendered(recs[i].x, recs[i].y);
    }
  }

  /** A compact coordinate line converts back to its coordinates. */
  lemma ParseCompact(x: nat, y: int)
    ensures ParseCoordinates(Decimal(x) + "-" + Decimal(y)) == Success((x, y))
  {
    assert AllSpaces("");
    ParseCoordinateLine(x, "", "", y, "");
    CompactLine(Decimal(x), Decimal(y), "");
    assert Decimal(x) + "-" + Decimal(y) + "" == Decimal(x) + "-" + Decimal(y);
  }

  /** A coordinate line with nothing around its separator, written in
      parts. */
  lemma CompactLine(a: string, b: string, tail: string)
    ensures (a + "") + "-" + ("" + (b + tail)) == a + "-" + b + tail
  {
    assert a + "" == a && "" + (b + tail) == b + tail;
  }

  /** Each compact coordinate line of a record parses to the record's
      coordinates. */
  lemma CompactPairsParse(recs: seq<Record>)
    requires NamesPresent(recs)
    ensures PairsParse(RecordPairs(recs, "-"))
    ensures forall i :: 0 <= i < |recs| ==> ParseCoordinates(RecordPairs(recs, "-")[i].1) == Success((recs[i].x, recs[i].y))
  {
    var pairs := RecordPairs(recs, "-");
    forall i | 0 <= i < |recs|
      ensures ParseCoordinates(pairs[i].1) == Success((recs[i].x, recs[i].y))
    {
      ParseCompact(recs[i].x, recs[i].y);
    }
  }

  /** A file of records in the compact layout loads exactly as the
      documented spaced layout does. */
  lemma ReadCompact(recs: seq<Record>)
    requires NamesPresent(recs)
    ensures ReadCityData([], Lines(RecordPairs(recs, "-"))) == Success(Stored(recs))
  {
    CompactStored(recs);
    ReadPairsFile(RecordPairs(recs, "-"));
  }

  /** Records written compactly store the records' cities. */
  lemma CompactStored(recs: seq<Record>)
    requires NamesPresent(recs)
    ensures PairsParse(RecordPairs(recs, "-"))
    ensures StoredPairs(RecordPairs(recs, "-")) == Stored(recs)
  {
    CompactPairsParse(recs);
    var s, t := StoredPairs(RecordPairs(recs, "-")), Stored(recs);
    assert |s| == |t|;
    assert forall i :: 0 <= i < |s| ==> s[i] == t[i];
  }

  /** Reading the lines of complete records stores one city per record, in
      file order, under key 0, and then carries on with the lines after. */
  lemma ReadRendered(store: seq<Entry>, recs: seq<Record>, rest: seq<string>)
    requires AllKeysZero(store) && NamesPresent(recs)
    ensures ReadLines(store, "", Render(recs) + rest) == ReadLines(store + Stored(recs), "", rest)
  {
    RecordsAsPairs(recs);
    ReadPairs(store, RecordPairs(recs, " - "), rest);
  }

  /** A file of N complete records gives exactly those N cities, in file
      order, each under key 0. */
  lemma ReadRecords(recs: seq<Record>)
    requires NamesPresent(recs)
    ensures ReadCityData([], Render(recs)) == Success(Stored(recs))
  {
    RecordsAsPairs(recs);
    ReadPairsFile(RecordPairs(recs, " - "));
  }

  /** A name on the last line, with no coordinate line after it, stores
      nothing and is not an error. */
  lemma TrailingNameIgnored(store: seq<Entry>, pairs: seq<(string, string)>, name: string)
    requires AllKeysZero(store) && PairsParse(pairs)
    ensures ReadCityData(store, Lines(pairs) + [name]) == Success(store + StoredPairs(pairs))
  {
    ReadPairs(store, pairs, [name]);
  }

  /** A coordinate line starting with `-` has an empty x part, which does
      not convert: reading fails there, whatever follows. */
  lemma LeadingMinusRejected(store: seq<Entry>, pairs: seq<(string, string)>, name: string, tail: string, rest: seq<string>)
    requires AllKeysZero(store) && PairsParse(pairs) && name != ""
    ensures ReadCityData(store, Lines(pairs) + [name, "-" + tail] + rest)
         == Failure(ConversionFailed("-" + tail))
  {
    var line := "-" + tail;
    assert ParseCoordinates(line) == Failure(ConversionFailed(line)) by {
      assert line[0] == '-';
    }
    StopsAtBadLine(store, pairs, name, line, rest);
  }

  /** A coordinate line without `-` has an empty y part, which does not
      convert: reading fails there, whatever follows. */
  lemma MissingSeparatorRejected(store: seq<Entry>, pairs: seq<(string, string)>, name: string, line: string, rest: seq<string>)
    requires AllKeysZero(store) && PairsParse(pairs) && name != "" && '-' !in line
    ensures ReadCityData(store, Lines(pairs) + [name, line] + rest)
         == Failure(ConversionFailed(line))
  {
    StopsAtBadLine(store, pairs, name, line, rest);
  }

  /** Complete pairs followed by a name and a coordinate line that does not
      parse: reading fails with that line's error. */
  lemma StopsAtBadLine(store: seq<Entry>, pairs: seq<(string, string)>, name: string, line: string, rest: seq<string>)
    requires AllKeysZero(store) && PairsParse(pairs) && name != "" && ParseCoordinates(line).Failure?
    ensures ReadCityData(store, Lines(pairs) + [name, line] + rest) == Failure(ParseCoordinates(line).error)
  {
    assert Lines(pairs) + [name, line] + rest == Lines(pairs) + ([name, line] + rest);
    ReadPairs(store, pairs, [name, line] + rest);
    BadLineStops(store + StoredPairs(pairs), name, line, rest);
  }

  /** A name followed by a coordinate line that does not parse stops
      reading with that line's error. */
  lemma BadLineStops(store: seq<Entry>, name: string, line: string, rest: seq<string>)
    requires name != "" && ParseCoordinates(line).Failure?
    ensures ReadLines(store, "", [name, line] + rest) == Failure(ParseCoordinates(line).error)
  {
    var lines := [name, line] + rest;
    assert lines[0] == name && lines[1..][0] == line;
  }

  /** An empty line met while no name is pending is skipped. */
  lemma BlankLineSkipped(store: seq<Entry>, lines: seq<string>)
    requires |lines| > 0 && lines[0] == ""
    ensures ReadLines(store, "", lines) == ReadLines(store, "", lines[1..])
  {
  }

  /** Any run of empty lines met while no name is pending is skipped. */
  lemma {:induction false} BlankLinesSkipped(store: seq<Entry>, blanks: seq<string>, rest: seq<string>)
    requires forall i :: 0 <= i < |blanks| ==> blanks[i] == ""
    ensures ReadLines(store, "", blanks + rest) == ReadLines(store, "", rest)
    decreases |blanks|
  {
    if |blanks| == 0 {
      assert blanks + rest == rest;
    } else {
      var lines := blanks + rest;
      assert lines[0] == "" && lines[1..] == blanks[1..] + rest;
      BlankLineSkipped(store, lines);
      BlankLinesSkipped(store, blanks[1..], rest);
    }
  }
}

=== FILE: metrics.dfy ===
/** The three distance functions of the search and the table that selects
    one by its index. */
module Metrics {
  import opened Results
  import opened Distances
  import opened Numbers

  /** The norm a search measures with, in the order of the source's table:
      index 0 is Euclidean, 1 is Chebyshev, 2 is Manhattan. */
  datatype Norm = L2 | LInf | L1

  /** The position of `norm` in the table of distance functions. */
  function IndexOf(norm: Norm): (i: nat)
    ensures i <= 2
  {
    match norm
    case L2 => 0
    case LInf => 1
    case L1 => 2
  }

  /** The norm at position `i` of the table. Only 0, 1 and 2 are positions
      of the table; the source leaves any other index undefined. */
  function NormAt(i: int): (r: Option<Norm>)
    ensures r.Some? <==> 0 <= i <= 2
    ensures r.Some? ==> IndexOf(r.value) == i
  {
    if i == 0 then Some(L2)
    else if i == 1 then Some(LInf)
    else if i == 2 then Some(L1)
    else None
  }

  /** Reading a norm back from its index gives the same norm. */
  lemma NormAtIndexOf(norm: Norm)
    ensures NormAt(IndexOf(norm)) == Some(norm)
  {
  }

  function Max(a: int, b: int): (r: int)
    ensures a <= r && b <= r && (r == a || r == b)
  {
    if a < b then b else a
  }

  /** The Euclidean distance between (x0, y0) and (x1, y1). */
  function L2Distance(x0: int, y0: int, x1: int, y1: int): (d: Distance)
    ensures d.Root? && d.NonNegative()
    ensures d.IsZero() <==> x0 == x1 && y0 == y1
  {
    var dx, dy := x0 - x1, y0 - y1;
    assert dx != 0 ==> 0 < dx * dx;
    assert dy != 0 ==> 0 < dy * dy;
    Root(dx * dx + dy * dy)
  }

  /** The Chebyshev distance: the larger of the two coordinate gaps. */
  function LInfDistance(x0: int, y0: int, x1: int, y1: int): (d: Distance)
    ensures d.Plain? && d.NonNegative()
    ensures Abs(x0 - x1) <= d.value && Abs(y0 - y1) <= d.value
    ensures d.value == Abs(x0 - x1) || d.value == Abs(y0 - y1)
    ensures d.IsZero() <==> x0 == x1 && y0 == y1
  {
    Plain(Max(Abs(x0 - x1), Abs(y0 - y1)))
  }

  /** The Manhattan distance: the sum of the two coordinate gaps. */
  function L1Distance(x0: int, y0: int, x1: int, y1: int): (d: Distance)
    ensures d.Plain? && d.NonNegative()
    ensures Abs(x0 - x1) <= d.value && Abs(y0 - y1) <= d.value
    ensures d.IsZero() <==> x0 == x1 && y0 == y1
  {
    Plain(Abs(x0 - x1) + Abs(y0 - y1))
  }

  /** The distance function the table holds for `norm`. */
  function DistanceFunc(norm: Norm, x0: int, y0: int, x1: int, y1: int): (d: Distance)
    ensures d.NonNegative()
    ensures d.IsZero() <==> x0 == x1 && y0 == y1
  {
    match norm
    case L2 => L2Distance(x0, y0, x1, y1)
    case LInf => LInfDistance(x0, y0, x1, y1)
    case L1 => L1Distance(x0, y0, x1, y1)
  }

  /** The three norms are ordered: Chebyshev <= Euclidean <= Manhattan, and
      Manhattan is at most twice Chebyshev. */
  lemma NormOrder(x0: int, y0: int, x1: int, y1: int)
    ensures Le(LInfDistance(x0, y0, x1, y1), L2Distance(x0, y0, x1, y1))
    ensures Le(L2Distance(x0, y0, x1, y1), L1Distance(x0, y0, x1, y1))
    ensures L1Distance(x0, y0, x1, y1).value <= 2 * LInfDistance(x0, y0, x1, y1).value
  {
    var a, b := Abs(x0 - x1), Abs(y0 - y1);
    SquaresOfDifferences(x0 - x1, y0 - y1);
    ChebyshevBelowEuclidean(a, b);
    EuclideanBelowManhattan(a, b);
  }

  /** Squaring forgets the sign of a difference. */
  lemma SquaresOfDifferences(dx: int, dy: int)
    ensures Abs(dx) * Abs(dx) == dx * dx && Abs(dy) * Abs(dy) == dy * dy
  {
  }

  /** The larger of two magnitudes is at most the root of their squares'
      sum. */
  lemma ChebyshevBelowEuclidean(a: nat, b: nat)
    ensures Le(Plain(Max(a, b)), Root(a * a + b * b))
  {
    assert 0 <= a * a && 0 <= b * b;
  }

  /** The root of two magnitudes' squares' sum is at most their sum. */
  lemma EuclideanBelowManhattan(a: nat, b: nat)
    ensures Le(Root(a * a + b * b), Plain(a + b))
  {
    assert 0 <= a * b;
    assert (a + b) * (a + b) == a * a + 2 * (a * b) + b * b;
  }

  /** The Euclidean distance obeys Pythagoras: its square is the sum of the
      squares of the two axis-aligned legs through the corner (x1, y0). A
      leg lies on one axis, so the Chebyshev distance measures it. */
  lemma EuclideanFromLegs(x0: int, y0: int, x1: int, y1: int)
    ensures var a, b := LInfDistance(x0, y0, x1, y0).value, LInfDistance(x1, y0, x1, y1).value;
            L2Distance(x0, y0, x1, y1) == Root(a * a + b * b)
  {
    SquaresOfDifferences(x0 - x1, y0 - y1);
  }

  /** The Manhattan distance is the length of the path along the two
      axis-aligned legs through the corner (x1, y0). */
  lemma ManhattanFromLegs(x0: int, y0: int, x1: int, y1: int)
    ensures L1Distance(x0, y0, x1, y1).value
         == LInfDistance(x0, y0, x1, y0).value + LInfDistance(x1, y0, x1, y1).value
  {
  }

  /** The Euclidean distance is within a radius `r` exactly when the sum of
      the squared coordinate gaps is at most `r * r`. */
  lemma EuclideanWithin(x0: int, y0: int, x1: int, y1: int, r: int)
    requires 0 <= r
    ensures Le(L2Distance(x0, y0, x1, y1), Plain(r))
        <==> (x0 - x1) * (x0 - x1) + (y0 - y1) * (y0 - y1) <= r * r
  {
  }

  /** Every norm is symmetric: the distance from a city to the reference is
      the distance from the reference to the city. */
  lemma DistanceSymmetric(norm: Norm, x0: int, y0: int, x1: int, y1: int)
    ensures DistanceFunc(norm, x0, y0, x1, y1) == DistanceFunc(norm, x1, y1, x0, y0)
  {
    assert (x0 - x1) * (x0 - x1) == (x1 - x0) * (x1 - x0);
    assert (y0 - y1) * (y0 - y1) == (y1 - y0) * (y1 - y0);
  }
}

=== FILE: multimap.dfy ===
/** `std::multimap<double, City>` as a sequence of entries kept in key
    order, with the one mutation the core uses: insertion. */
module Multimap {
  import opened Distances
  import opened Cities

  /** One key/city pair of the multimap. */
  datatype Entry = Entry(key: Distance, city: City)

  /** The entries are in non-decreasing key order. */
  predicate Sorted(s: seq<Entry>) {
    forall i, j :: 0 <= i < j < |s| ==> Le(s[i].key, s[j].key)
  }

  /** `insert` without a position hint: the new entry goes after every entry
      whose key is not greater than its own, that is, at the end of its run
      of equal keys. */
  function Insert(s: seq<Entry>, e: Entry): (r: seq<Entry>)
    ensures multiset(r) == multiset(s) + multiset{e}
    ensures |r| == |s| + 1
  {
    if |s| == 0 || Lt(e.key, s[0].key) then [e] + s
    else
      assert s == [s[0]] + s[1..];
      [s[0]] + Insert(s[1..], e)
  }

  /** Inserting into a sorted multimap keeps it sorted. */
  lemma {:induction false} InsertSorted(s: seq<Entry>, e: Entry)
    requires Sorted(s)
    ensures Sorted(Insert(s, e))
  {
    if |s| == 0 {
    } else if Lt(e.key, s[0].key) {
      LeTotal(e.key, s[0].key);
      forall j | 0 <= j < |s|
        ensures Le(e.key, s[j].key)
      {
        if j > 0 {
          LeTransitive(e.key, s[0].key, s[j].key);
        }
      }
    } else {
      var tail := Insert(s[1..], e);
      InsertSorted(s[1..], e);
      forall x | x in tail
        ensures Le(s[0].key, x.key)
      {
        assert x in multiset(tail);
      }
    }
  }

  /** An entry whose key is at least every key already present is appended:
      this is how a run of equal keys keeps its insertion order. */
  lemma {:induction false} InsertAfterAll(s: seq<Entry>, e: Entry)
    requires forall i :: 0 <= i < |s| ==> Le(s[i].key, e.key)
    ensures Insert(s, e) == s + [e]
  {
    if |s| != 0 {
      InsertAfterAll(s[1..], e);
      assert s == [s[0]] + s[1..];
    }
  }

  /** Inserting the entries of `es` into `s`, one after the other. */
  function InsertAll(s: seq<Entry>, es: seq<Entry>): (r: seq<Entry>)
    ensures multiset(r) == multiset(s) + multiset(es)
    ensures |r| == |s| + |es|
    decreases |es|
  {
    if |es| == 0 then s
    else
      assert es == [es[0]] + es[1..];
      InsertAll(Insert(s, es[0]), es[1..])
  }

  /** Inserting any entries into a sorted multimap keeps it sorted. */
  lemma {:induction false} InsertAllSorted(s: seq<Entry>, es: seq<Entry>)
    requires Sorted(s)
    ensures Sorted(InsertAll(s, es))
    decreases |es|
  {
    if |es| != 0 {
      InsertSorted(s, es[0]);
      InsertAllSorted(Insert(s, es[0]), es[1..]);
    }
  }
}

=== FILE: numbers.dfy ===
/** Conversion of text to a number as `std::stod` does it, for the integer
    literals this model represents, and the decimal printing of integers
    that the conversion inverts.

    `std::stod` skips leading white space, reads an optional sign and the
    longest numeric prefix, and ignores whatever text follows; it fails when
    no prefix converts. Literals whose value needs a fraction, an exponent,
    hexadecimal digits, or infinity/NaN are reported as `NotModelled`. */
module Numbers {

  /** What converting a piece of text gives. */
  datatype Conversion =
    | Converted(value: int)  // an integer prefix was read
    | NoConversion           // no numeric prefix: `std::stod` throws
    | NotModelled            // a floating-point literal outside the model

  /** The characters `std::isspace` accepts in the "C" locale. */
  predicate IsSpace(c: char) {
    c == ' ' || c == '\t' || c == '\n' || c == '\U{B}' || c == '\U{C}' || c == '\r'
  }

  predicate IsDigit(c: char) {
    '0' as int <= c as int <= '9' as int
  }

  /** `c` is the letter `lower` in either case. */
  predicate IsLetter(c: char, lower: char)
    requires 'a' <= lower <= 'z'
  {
    c == lower || c as int == lower as int - 32
  }

  predicate IsHexDigit(c: char) {
    IsDigit(c) || 'a' <= c <= 'f' || 'A' <= c <= 'F'
  }

  /** `t` starts with a digit, possibly after one sign character. */
  predicate NumberFollows(t: string) {
    (|t| > 0 && IsDigit(t[0]))
    || (|t| > 1 && (t[0] == '-' || t[0] == '+') && IsDigit(t[1]))
  }

  /** `t` starts the digits of a hexadecimal number: a hexadecimal digit,
      or a point and one. */
  predicate HexFollows(t: string) {
    (|t| > 0 && IsHexDigit(t[0]))
    || (|t| > 1 && t[0] == '.' && IsHexDigit(t[1]))
  }

  /** After the digit run `ds`, the text `rest` carries the literal on, so
      that `std::stod` reads more than the digits: another digit, a
      fraction point, an exponent (`e` or `E` with a digit after an optional
      sign) or, after a lone `0`, a hexadecimal number (`x` or `X` with a
      hexadecimal digit). Any other text ends the literal. */
  predicate ExtendsLiteral(ds: string, rest: string) {
    |rest| > 0
    && (IsDigit(rest[0]) || rest[0] == '.'
        || (IsLetter(rest[0], 'e') && NumberFollows(rest[1..]))
        || (ds == "0" && IsLetter(rest[0], 'x') && HexFollows(rest[1..])))
  }

  /** `u` starts a floating-point literal without a leading digit: a point
      and a digit, or `inf` or `nan` in any case. */
  predicate StartsNonInteger(u: string) {
    (|u| > 1 && u[0] == '.' && IsDigit(u[1]))
    || (|u| > 2 && IsLetter(u[0], 'i') && IsLetter(u[1], 'n') && IsLetter(u[2], 'f'))
    || (|u| > 2 && IsLetter(u[0], 'n') && IsLetter(u[1], 'a') && IsLetter(u[2], 'n'))
  }

  /** Every character of `s` is white space. */
  predicate AllSpaces(s: string) {
    forall i :: 0 <= i < |s| ==> IsSpace(s[i])
  }

  /** Every character of `s` is a decimal digit. */
  predicate AllDigits(s: string) {
    forall i :: 0 <= i < |s| ==> IsDigit(s[i])
  }

  /** The text after its leading white space. */
  function SkipSpaces(s: string): (t: string)
    ensures |t| <= |s|
    ensures AllSpaces(s) ==> |t| == 0
    ensures |t| == 0 || !IsSpace(t[0])
  {
    if |s| > 0 && IsSpace(s[0]) then SkipSpaces(s[1..]) else s
  }

  /** The length of the run of digits at the start of `s`. */
  function DigitRun(s: string): (n: nat)
    ensures n <= |s|
    ensures AllDigits(s[..n])
    ensures n == |s| || !IsDigit(s[n])
  {
    if |s| > 0 && IsDigit(s[0]) then 1 + DigitRun(s[1..]) else 0
  }

  /** The number a non-empty run of decimal digits denotes. */
  function DigitsValue(ds: string): nat
    requires AllDigits(ds)
  {
    if |ds| == 0 then 0
    else
      assert IsDigit(ds[|ds| - 1]);
      DigitsValue(ds[..|ds| - 1]) * 10 + (ds[|ds| - 1] as int - '0' as int)
  }

  /** The conversion of a literal without its sign: the longest digit run,
      unless the literal goes on as a fraction, an exponent or a hexadecimal
      number. */
  function ConvertUnsigned(u: string): (r: Conversion)
    ensures r.Converted? ==> |u| > 0 && IsDigit(u[0]) && r.value >= 0
    ensures |u| == 0 ==> r == NoConversion
    ensures r.NoConversion? <==> DigitRun(u) == 0 && !StartsNonInteger(u)
  {
    var n := DigitRun(u);
    if n == 0 then
      if StartsNonInteger(u) then NotModelled else NoConversion
    else if ExtendsLiteral(u[..n], u[n..]) then NotModelled
    else
      assert u[..n][0] == u[0];
      Converted(DigitsValue(u[..n]))
  }

  /** The conversion of a literal with an optional leading sign. */
  function ConvertSigned(t: string): (r: Conversion)
    ensures r.Converted? ==> NumberFollows(t)
    ensures r.Converted? && r.value < 0 ==> t[0] == '-'
    ensures |t| == 0 ==> r == NoConversion
    ensures r.NoConversion? <==>
              var u := if |t| > 0 && (t[0] == '-' || t[0] == '+') then t[1..] else t;
              DigitRun(u) == 0 && !StartsNonInteger(u)
  {
    if |t| > 0 && t[0] == '-' then
      match ConvertUnsigned(t[1..])
      case Converted(v) => Converted(-v)
      case other => other
    else if |t| > 0 && t[0] == '+' then ConvertUnsigned(t[1..])
    else ConvertUnsigned(t)
  }

  /** `std::stod` applied to `s`: leading white space is skipped, then a
      signed literal is read. */
  function Convert(s: string): (r: Conversion)
    ensures AllSpaces(s) ==> r == NoConversion
    ensures r.Converted? ==> NumberFollows(SkipSpaces(s))
    ensures r.Converted? && r.value < 0 ==> SkipSpaces(s)[0] == '-'
    ensures r.NoConversion? <==>
              var t := SkipSpaces(s);
              var u := if |t| > 0 && (t[0] == '-' || t[0] == '+') then t[1..] else t;
              DigitRun(u) == 0 && !StartsNonInteger(u)
  {
    ConvertSigned(SkipSpaces(s))
  }

  /** White space in front of text is skipped over entirely. */
  lemma {:induction false} SkipSpacesOver(lead: string, t: string)
    requires AllSpaces(lead)
    ensures SkipSpaces(lead + t) == SkipSpaces(t)
  {
    if |lead| != 0 {
      assert (lead + t)[0] == lead[0] && (lead + t)[1..] == lead[1..] + t;
      SkipSpacesOver(lead[1..], t);
    } else {
      assert lead + t == t;
    }
  }

  /** White space in front of a literal does not change its conversion. */
  lemma ConvertAfterSpaces(lead: string, t: string)
    requires AllSpaces(lead)
    ensures Convert(lead + t) == Convert(t)
  {
    SkipSpacesOver(lead, t);
  }

  /** The decimal digits of `n`, most significant first, without leading
      zeros. */
  function DigitsOf(n: nat): (ds: string)
    ensures 0 < |ds|
    ensures AllDigits(ds)
  {
    var last := ('0' as int + n % 10) as char;
    if n < 10 then [last] else DigitsOf(n / 10) + [last]
  }

  /** The absolute value of `x`. */
  function Abs(x: int): (r: nat)
    ensures r == x || r == -x
  {
    if x < 0 then -x else x
  }

  /** `i` written in decimal, with a leading `-` when negative. */
  function Decimal(i: int): (s: string)
    ensures 0 < |s|
    ensures i >= 0 ==> AllDigits(s)
    ensures i < 0 ==> s[0] == '-' && AllDigits(s[1..])
  {
    if i < 0 then "-" + DigitsOf(Abs(i)) else DigitsOf(i)
  }

  /** Reading back the digits of `n` gives `n`. */
  lemma {:induction false} DigitsValueOf(n: nat)
    ensures DigitsValue(DigitsOf(n)) == n
  {
    var ds := DigitsOf(n);
    if n >= 10 {
      DigitsValueOf(n / 10);
      assert ds[..|ds| - 1] == DigitsOf(n / 10);
    }
  }

  /** A digit run followed by text that does not extend the literal has
      exactly the run's length. */
  lemma {:induction false} DigitRunOfDigits(ds: string, rest: string)
    requires AllDigits(ds)
    requires |rest| == 0 || !IsDigit(rest[0])
    ensures DigitRun(ds + rest) == |ds|
  {
    if |ds| == 0 {
      assert ds + rest == rest;
    } else {
      assert (ds + rest)[1..] == ds[1..] + rest;
      DigitRunOfDigits(ds[1..], rest);
    }
  }

  /** Converting a digit run, with what follows it not extending the
      literal, gives the run's value. */
  lemma ConvertDigits(ds: string, rest: string)
    requires 0 < |ds| && AllDigits(ds)
    requires !ExtendsLiteral(ds, rest)
    ensures ConvertUnsigned(ds + rest) == Converted(DigitsValue(ds))
  {
    var u := ds + rest;
    DigitRunOfDigits(ds, rest);
    assert u[..|ds|] == ds && u[|ds|..] == rest;
  }

  /** Text that starts with neither white space nor a sign is converted as
      it stands. */
  lemma ConvertPlain(s: string)
    requires |s| > 0 && !IsSpace(s[0]) && s[0] != '-' && s[0] != '+'
    ensures Convert(s) == ConvertUnsigned(s)
  {
  }

  /** A minus sign in front of a literal negates its value. */
  lemma ConvertMinus(u: string, v: int)
    requires ConvertUnsigned(u) == Converted(v)
    ensures Convert("-" + u) == Converted(-v)
  {
    var s := "-" + u;
    assert SkipSpaces(s) == s;
    assert s[1..] == u;
  }

  /** A plus sign in front of a literal leaves its value unchanged. */
  lemma ConvertPlus(u: string, v: int)
    requires ConvertUnsigned(u) == Converted(v)
    ensures Convert("+" + u) == Converted(v)
  {
    var s := "+" + u;
    assert SkipSpaces(s) == s;
    assert s[1..] == u;
  }

  /** Converting the decimal form of a natural number gives it back. */
  lemma ConvertNatural(n: int, rest: string)
    requires 0 <= n
    requires !ExtendsLiteral(DigitsOf(n), rest)
    ensures Convert(Decimal(n) + rest) == Converted(n)
  {
    var ds := DigitsOf(n);
    assert Decimal(n) == ds;
    DigitsValueOf(n);
    ConvertDigits(ds, rest);
    assert (ds + rest)[0] == ds[0];
    ConvertPlain(ds + rest);
  }

  /** Converting the decimal form of a negative number gives it back. */
  lemma ConvertNegative(i: int, rest: string)
    requires i < 0
    requires !ExtendsLiteral(DigitsOf(-i), rest)
    ensures Convert(Decimal(i) + rest) == Converted(i)
  {
    var ds := DigitsOf(-i);
    var u := ds + rest;
    assert Decimal(i) + rest == "-" + u by {
      assert Decimal(i) == "-" + ds;
    }
    assert ConvertUnsigned(u) == Converted(-i) by {
      DigitsValueOf(-i);
      ConvertDigits(ds, rest);
    }
    ConvertMinus(u, -i);
  }

  /** Converting the decimal form of `i` gives `i` back, whatever text
      follows it, as long as that text does not extend the literal. */
  lemma ConvertDecimal(i: int, rest: string)
    requires !ExtendsLiteral(DigitsOf(Abs(i)), rest)
    ensures Convert(Decimal(i) + rest) == Converted(i)
  {
    if i < 0 {
      ConvertNegative(i, rest);
    } else {
      ConvertNatural(i, rest);
    }
  }
}

=== FILE: results.dfy ===
/** Failure-carrying values used in place of the source's exceptions and
    unchecked lookups. */
module Results {

  /** A value that may be absent. */
  datatype Option<+T> = None | Some(value: T)

  /** Either a value or the error that stopped its computation. */
  datatype Result<+T, +E> = Success(value: T) | Failure(error: E)
}

=== FILE: scenarios.dfy ===
/** A worked example: three cities around Oslo. */
module Scenarios {
  import opened Results
  import opened Distances
  import opened Metrics
  import opened Cities
  import opened Multimap
  import opened Numbers
  import opened Ingestion
  import opened Search
  import opened Sequences

  /** Rendering a sequence that starts with `rec` writes `rec` first. */
  lemma RenderFirst(rec: Record, recs: seq<Record>)
    ensures Render([rec] + recs) == RecordLines(rec) + Render(recs)
  {
    assert ([rec] + recs)[1..] == recs;
  }

  /** The one-digit numbers the sample uses. */
  lemma SmallDecimals()
    ensures Decimal(0) == "0" && Decimal(1) == "1" && Decimal(2) == "2"
    ensures Decimal(3) == "3" && Decimal(4) == "4"
  {
    assert DigitsOf(0) == "0" && DigitsOf(1) == "1" && DigitsOf(2) == "2";
    assert DigitsOf(3) == "3" && DigitsOf(4) == "4";
  }

  /** Rendering distributes over concatenation. */
  lemma {:induction false} RenderAppend(p: seq<Record>, q: seq<Record>)
    ensures Render(p + q) == Render(p) + Render(q)
  {
    if |p| == 0 {
      assert p + q == q;
    } else {
      assert (p + q)[0] == p[0] && (p + q)[1..] == p[1..] + q;
      RenderAppend(p[1..], q);
      AppendAssociative(RecordLines(p[0]), Render(p[1..]), Render(q));
    }
  }

  /** The lines of the Oslo and Bergen records. */
  lemma OsloBergenLines()
    ensures Render([Record("Oslo", 0, 0), Record("Bergen", 3, 4)]) == ["Oslo", "0 - 0", "Bergen", "3 - 4"]
  {
    SmallDecimals();
    assert RecordLines(Record("Oslo", 0, 0)) == ["Oslo", "0 - 0"] by {
      assert "0" + " - " + "0" == "0 - 0";
    }
    assert RecordLines(Record("Bergen", 3, 4)) == ["Bergen", "3 - 4"] by {
      assert "3" + " - " + "4" == "3 - 4";
    }
    RenderFirst(Record("Bergen", 3, 4), []);
    RenderFirst(Record("Oslo", 0, 0), [Record("Bergen", 3, 4)]);
  }

  /** The Oslo and Bergen records as name/coordinate pairs. */
  lemma OsloBergenPairs()
    ensures var pairs := RecordPairs([Record("Oslo", 0, 0), Record("Bergen", 3, 4)], " - ");
              PairsParse(pairs) && Lines(pairs) == ["Oslo", "0 - 0", "Bergen", "3 - 4"]
  {
    var recs := [Record("Oslo", 0, 0), Record("Bergen", 3, 4)];
    OsloBergenLines();
    assert NamesPresent(recs);
    RecordsAsPairs(recs);
  }

  /** Oslo and Bergen, then a name and a coordinate line that does not
      parse: reading fails with that line's error. */
  lemma OsloBergenThenBadLine(name: string, line: string)
    requires name != "" && ParseCoordinates(line).Failure?
    ensures ReadCityData([], ["Oslo", "0 - 0", "Bergen", "3 - 4", name, line])
         == Failure(ParseCoordinates(line).error)
  {
    var pairs := RecordPairs([Record("Oslo", 0, 0), Record("Bergen", 3, 4)], " - ");
    OsloBergenPairs();
    StopsAtBadLine([], pairs, name, line, []);
    assert Lines(pairs) + [name, line] + [] == ["Oslo", "0 - 0", "Bergen", "3 - 4", name, line];
  }

  /** With Stavanger written at (-1, 2), its line "-1 - 2" is split at its
      first '-', leaving nothing to convert before it, so the whole file is
      refused at that line. */
  lemma SampleFileRejected()
    ensures ReadCityData([], ["Oslo", "0 - 0", "Bergen", "3 - 4", "Stavanger", "-1 - 2"])
         == Failure(ConversionFailed("-1 - 2"))
  {
    var line := "-1 - 2";
    assert ParseCoordinates(line) == Failure(ConversionFailed(line)) by {
      assert line[0] == '-';
    }
    OsloBergenThenBadLine("Stavanger", line);
  }

  /** Bergen's coordinate line followed by text that does not extend the
      number 4. */
  lemma BergenLineWithTail(tail: string)
    requires !ExtendsLiteral("4", tail) && '\n' !in tail
    ensures ParseCoordinates("3-4" + tail) == Success((3, 4))
  {
    SmallDecimals();
    assert DigitsOf(Abs(4)) == "4";
    assert AllSpaces("");
    ParseCoordinateLine(3, "", "", 4, tail);
    CompactLine(Decimal(3), Decimal(4), tail);
    assert Decimal(3) + "-" + Decimal(4) == "3-4";
  }

  /** Text after a number that cannot extend it is ignored, as `std::stod`
      ignores it: "3-4x" gives Bergen's coordinates. */
  lemma TrailingLetterIgnored()
    ensures ParseCoordinates("3-4x") == Success((3, 4))
  {
    var tail := "x";
    assert "4" != "0" by {
      assert "4"[0] != "0"[0];
    }
    assert tail[0] == 'x' && !IsDigit('x') && !IsLetter('x', 'e');
    assert !ExtendsLiteral("4", tail);
    BergenLineWithTail(tail);
    assert "3-4" + tail == "3-4x";
  }

  /** An `e` is an exponent only when a digit follows it: "3-4e" gives
      Bergen's coordinates. */
  lemma TrailingExponentMarkIgnored()
    ensures ParseCoordinates("3-4e") == Success((3, 4))
  {
    assert "4" != "0" by {
      assert "4"[0] != "0"[0];
    }
    var tail := "e";
    assert tail[0] == 'e' && tail[1..] == "" && !IsDigit('e');
    assert !ExtendsLiteral("4", tail);
    BergenLineWithTail(tail);
    assert "3-4" + tail == "3-4e";
  }

  /** "north" starts neither a number nor a floating-point literal. */
  lemma WordNotConverted()
    ensures Convert("north") == NoConversion
  {
    var w := "north";
    assert SkipSpaces(w) == w && DigitRun(w) == 0;
    assert w[0] == 'n' && w[1] == 'o';
    assert !StartsNonInteger(w);
  }

  /** A word where a number belongs does not convert, and reading reports a
      conversion error. */
  lemma WordRejected()
    ensures ParseCoordinates("north-4") == Failure(ConversionFailed("north-4"))
  {
    assert "north-4" == "north" + ['-'] + "4";
    SplitAtFirstOf("north", '-', "4");
    WordNotConverted();
  }

  /** The conversion of "4e5" reads an exponent. */
  lemma ExponentNotModelled()
    ensures Convert("4e5") == NotModelled
  {
    var y := "4e5";
    assert SkipSpaces(y) == y && DigitRun(y) == 1;
    assert y[..1] == "4" && y[1..] == "e5";
    assert "e5"[0] == 'e' && "e5"[1..] == "5" && IsDigit('5');
    assert ExtendsLiteral("4", "e5");
  }

  /** The conversion of "0x1A" reads a hexadecimal number. */
  lemma HexadecimalNotModelled()
    ensures Convert("0x1A") == NotModelled
  {
    var x := "0x1A";
    assert SkipSpaces(x) == x && DigitRun(x) == 1;
    assert x[..1] == "0" && x[1..] == "x1A";
    assert "x1A"[0] == 'x' && "x1A"[1..] == "1A" && IsHexDigit('1');
    assert ExtendsLiteral("0", "x1A");
  }

  /** A one-digit number converts to itself. */
  lemma DigitConverted(c: char)
    requires IsDigit(c)
    ensures Convert([c]) == Converted(c as int - '0' as int)
  {
    var u := [c];
    assert SkipSpaces(u) == u && DigitRun(u) == 1;
    assert u[..1] == u && u[1..] == "";
    assert DigitsValue(u) == DigitsValue(u[..0]) * 10 + (c as int - '0' as int);
  }

  /** An exponent is a literal whose reading needs floating point, and is
      refused as unsupported. */
  lemma ExponentUnsupported()
    ensures ParseCoordinates("3-4e5") == Failure(UnsupportedLiteral("3-4e5"))
  {
    assert "3-4e5" == "3" + ['-'] + "4e5";
    SplitAtFirstOf("3", '-', "4e5");
    assert '\n' !in "4e5";
    DigitConverted('3');
    ExponentNotModelled();
  }

  /** So is a hexadecimal number. */
  lemma HexadecimalUnsupported()
    ensures ParseCoordinates("0x1A-4") == Failure(UnsupportedLiteral("0x1A-4"))
  {
    assert "0x1A-4" == "0x1A" + ['-'] + "4";
    SplitAtFirstOf("0x1A", '-', "4");
    assert '\n' !in "4";
    DigitConverted('4');
    HexadecimalNotModelled();
  }

  /** The conversion of "nan" reads a NaN. */
  lemma NanNotModelled()
    ensures Convert("nan") == NotModelled
  {
    var y := "nan";
    assert SkipSpaces(y) == y && DigitRun(y) == 0;
    assert y[0] == 'n' && y[1] == 'a' && y[2] == 'n';
    assert StartsNonInteger(y);
  }

  /** And so is a NaN. */
  lemma NanUnsupported()
    ensures ParseCoordinates("3-nan") == Failure(UnsupportedLiteral("3-nan"))
  {
    assert "3-nan" == "3" + ['-'] + "nan";
    SplitAtFirstOf("3", '-', "nan");
    assert '\n' !in "nan";
    DigitConverted('3');
    NanNotModelled();
  }

  /** The sample with Stavanger mirrored to (1, 2), so that it can be read. */
  function Oslo(): City { City("Oslo", 0, 0) }
  function Bergen(): City { City("Bergen", 3, 4) }
  function Stavanger(): City { City("Stavanger", 1, 2) }
  function Origin(): City { City("", 0, 0) }
  function SampleStore(): seq<Entry> {
    [Entry(Plain(0), Oslo()), Entry(Plain(0), Bergen()), Entry(Plain(0), Stavanger())]
  }

  function SampleRecords(): seq<Record> {
    [Record("Oslo", 0, 0), Record("Bergen", 3, 4), Record("Stavanger", 1, 2)]
  }

  /** The file lines of the mirrored sample. */
  lemma SampleLines()
    ensures Render(SampleRecords()) == ["Oslo", "0 - 0", "Bergen", "3 - 4", "Stavanger", "1 - 2"]
  {
    OsloBergenLines();
    assert RecordLines(Record("Stavanger", 1, 2)) == ["Stavanger", "1 - 2"] by {
      SmallDecimals();
      assert "1" + " - " + "2" == "1 - 2";
    }
    RenderFirst(Record("Stavanger", 1, 2), []);
    assert SampleRecords() == [Record("Oslo", 0, 0), Record("Bergen", 3, 4)] + [Record("Stavanger", 1, 2)];
    RenderAppend([Record("Oslo", 0, 0), Record("Bergen", 3, 4)], [Record("Stavanger", 1, 2)]);
  }

  /** The mirrored sample loads, in file order, with placeholder keys. */
  lemma SampleLoads()
    ensures ReadCityData([], ["Oslo", "0 - 0", "Bergen", "3 - 4", "Stavanger", "1 - 2"]) == Success(SampleStore())
  {
    SampleLines();
    ReadRecords(SampleRecords());
    SampleStored();
  }

  /** The mirrored sample in the compact layout. */
  lemma CompactSampleLines()
    ensures Lines(RecordPairs(SampleRecords(), "-")) == ["Oslo", "0-0", "Bergen", "3-4", "Stavanger", "1-2"]
  {
    var pairs := RecordPairs(SampleRecords(), "-");
    assert pairs == [("Oslo", "0-0"), ("Bergen", "3-4"), ("Stavanger", "1-2")] by {
      SmallDecimals();
      assert "0" + "-" + "0" == "0-0" && "3" + "-" + "4" == "3-4" && "1" + "-" + "2" == "1-2";
    }
    assert pairs[1..][1..][1..] == [];
    assert pairs[1..][1..] == [("Stavanger", "1-2")];
    assert pairs[1..] == [("Bergen", "3-4"), ("Stavanger", "1-2")];
  }

  /** The entries stored for the mirrored sample. */
  lemma SampleStored()
    ensures Stored(SampleRecords()) == SampleStore()
  {
    var st := Stored(SampleRecords());
    assert |st| == 3;
    assert st[0] == SampleStore()[0] && st[1] == SampleStore()[1] && st[2] == SampleStore()[2];
  }

  /** The mirrored sample written compactly, `x-y`, loads exactly as the
      spaced one does. */
  lemma CompactSampleLoads()
    ensures ReadCityData([], ["Oslo", "0-0", "Bergen", "3-4", "Stavanger", "1-2"]) == Success(SampleStore())
  {
    assert NamesPresent(SampleRecords());
    ReadCompact(SampleRecords());
    CompactSampleLines();
    SampleStored();
  }

  /** Every sample city lies within 5 of the origin. */
  lemma SampleNearby()
    ensures Nearby(SampleStore(), Origin(), 5, L2) == SampleStore()
  {
    var s := SampleStore();
    assert s[1..][1..][1..] == [];
    assert s[1..][1..] == [Entry(Plain(0), Stavanger())];
    assert s[1..] == [Entry(Plain(0), Bergen()), Entry(Plain(0), Stavanger())];
  }

  /** The squared Euclidean distances from the origin: 0, 25 and 5. */
  lemma SampleKeyed()
    ensures Keyed(SampleStore(), Origin(), L2)
         == [Entry(Root(0), Oslo()), Entry(Root(25), Bergen()), Entry(Root(5), Stavanger())]
  {
    var s := SampleStore();
    assert s[1..][1..][1..] == [];
    assert s[1..][1..] == [Entry(Plain(0), Stavanger())];
    assert s[1..] == [Entry(Plain(0), Bergen()), Entry(Plain(0), Stavanger())];
  }

  /** Ordering the keyed sample moves Stavanger ahead of Bergen. */
  lemma SampleSorted()
    ensures InsertAll([], [Entry(Root(0), Oslo()), Entry(Root(25), Bergen()), Entry(Root(5), Stavanger())])
         == [Entry(Root(0), Oslo()), Entry(Root(5), Stavanger()), Entry(Root(25), Bergen())]
  {
    var k := [Entry(Root(0), Oslo()), Entry(Root(25), Bergen()), Entry(Root(5), Stavanger())];
    var a := Insert([], k[0]);
    assert a == [k[0]];
    var b := Insert(a, k[1]);
    InsertAfterAll(a, k[1]);
    assert b == [k[0], k[1]];
    var c := Insert(b, k[2]);
    assert Insert([k[1]], k[2]) == [k[2], k[1]];
    assert b[1..] == [k[1]];
    assert c == [k[0], k[2], k[1]];
    assert k[1..][1..][1..] == [];
    assert InsertAll([], k) == InsertAll(a, k[1..]);
    assert InsertAll(a, k[1..]) == InsertAll(b, k[1..][1..]);
    assert InsertAll(b, k[1..][1..]) == InsertAll(c, k[1..][1..][1..]);
  }

  /** The Euclidean query of radius 5 around (0, 0) lists all three cities
      nearest first; Bergen, exactly on the boundary, is included. */
  lemma SampleSearch()
    ensures Search.Search(SampleStore(), Origin(), 5, L2)
         == [Entry(Root(0), Oslo()), Entry(Root(5), Stavanger()), Entry(Root(25), Bergen())]
  {
    SampleNearby();
    SampleKeyed();
    SampleSorted();
  }

  /** No city of the sample result lies north of the origin. */
  lemma SampleResultNorthernCount()
    ensures CountNorthernCities([Entry(Root(0), Oslo()), Entry(Root(5), Stavanger()), Entry(Root(25), Bergen())], Origin()) == 0
  {
    var r := [Entry(Root(0), Oslo()), Entry(Root(5), Stavanger()), Entry(Root(25), Bergen())];
    assert r[..2][..1][..0] == [];
    assert r[..2][..1] == [Entry(Root(0), Oslo())];
    assert r[..2] == [Entry(Root(0), Oslo()), Entry(Root(5), Stavanger())];
  }

  /** No sample city lies north of the origin. */
  lemma SampleNorthernCount()
    ensures CountNorthernCities(Search.Search(SampleStore(), Origin(), 5, L2), Origin()) == 0
  {
    SampleSearch();
    SampleResultNorthernCount();
  }
}

=== FILE: search.dfy ===
/** The radius query and the northern tally over its result. */
module Search {
  import opened Distances
  import opened Metrics
  import opened Cities
  import opened Multimap

  /** The distance from `center` to `city` under `norm`. */
  function DistanceTo(norm: Norm, center: City, city: City): (d: Distance)
    ensures d.NonNegative()
    ensures d.IsZero() <==> center.x == city.x && center.y == city.y
  {
    DistanceFunc(norm, center.x, center.y, city.x, city.y)
  }

  /** The inclusive radius test: the distance is at most the radius. */
  predicate Within(d: Distance, radius: int) {
    Le(d, Plain(radius))
  }

  /** The filtering pass: the entries of `store` whose city lies within
      `radius` of `center`, in store order. */
  function Nearby(store: seq<Entry>, center: City, radius: int, norm: Norm): (r: seq<Entry>)
    ensures |r| <= |store|
    ensures forall e :: e in r <==> e in store && Within(DistanceTo(norm, center, e.city), radius)
    ensures forall e :: multiset(r)[e]
              == if Within(DistanceTo(norm, center, e.city), radius) then multiset(store)[e] else 0
  {
    if |store| == 0 then []
    else
      var rest := Nearby(store[1..], center, radius, norm);
      assert store == [store[0]] + store[1..];
      assert multiset(store) == multiset{store[0]} + multiset(store[1..]);
      if Within(DistanceTo(norm, center, store[0].city), radius) then
        assert multiset([store[0]] + rest) == multiset{store[0]} + multiset(rest);
        [store[0]] + rest
      else rest
  }

  /** The keying pass: each entry re-keyed by its city's distance from
      `center`, in the same order. */
  function Keyed(nearby: seq<Entry>, center: City, norm: Norm): (r: seq<Entry>)
    ensures |r| == |nearby|
    ensures forall i :: 0 <= i < |r| ==> r[i] == Entry(DistanceTo(norm, center, nearby[i].city), nearby[i].city)
    ensures forall e :: e in r ==> e.key == DistanceTo(norm, center, e.city)
    ensures forall e :: e in r ==> exists n :: n in nearby && n.city == e.city
    ensures forall n :: n in nearby ==> Entry(DistanceTo(norm, center, n.city), n.city) in r
  {
    if |nearby| == 0 then []
    else
      assert nearby == [nearby[0]] + nearby[1..];
      [Entry(DistanceTo(norm, center, nearby[0].city), nearby[0].city)] + Keyed(nearby[1..], center, norm)
  }

  /** `search`: the stored cities within `radius` of `center` under `norm`,
      each keyed by that distance, in non-decreasing key order. */
  function Search(store: seq<Entry>, center: City, radius: int, norm: Norm): (r: seq<Entry>)
    ensures Sorted(r)
    ensures |r| <= |store|
    ensures multiset(r) == multiset(Keyed(Nearby(store, center, radius, norm), center, norm))
    ensures forall e :: e in r ==> e.key == DistanceTo(norm, center, e.city) && Within(e.key, radius)
    ensures forall e :: e in r ==> exists s :: s in store && s.city == e.city
    ensures forall s :: s in store && Within(DistanceTo(norm, center, s.city), radius)
              ==> Entry(DistanceTo(norm, center, s.city), s.city) in r
  {
    var keyed := Keyed(Nearby(store, center, radius, norm), center, norm);
    InsertAllSorted([], keyed);
    var r := InsertAll([], keyed);
    assert forall e :: e in r <==> e in keyed by {
      forall e
        ensures e in r <==> e in keyed
      {
        assert e in r <==> e in multiset(r);
        assert e in keyed <==> e in multiset(keyed);
      }
    }
    r
  }

  /** A larger radius never loses an entry the filter passes. */
  lemma WithinWider(d: Distance, radius: int, wider: int)
    requires Within(d, radius) && radius <= wider
    ensures Within(d, wider)
  {
    LeTransitive(d, Plain(radius), Plain(wider));
  }

  /** Keying a sequence that starts with `n` keys `n` first. */
  lemma KeyedFirst(n: Entry, rest: seq<Entry>, center: City, norm: Norm)
    ensures Keyed([n] + rest, center, norm)
         == [Entry(DistanceTo(norm, center, n.city), n.city)] + Keyed(rest, center, norm)
  {
    assert ([n] + rest)[1..] == rest;
  }

  /** Growing the radius keeps every keyed entry the smaller radius found. */
  lemma {:induction false} KeyedNearbyMonotonic(store: seq<Entry>, center: City, radius: int, wider: int, norm: Norm)
    requires radius <= wider
    ensures multiset(Keyed(Nearby(store, center, radius, norm), center, norm))
         <= multiset(Keyed(Nearby(store, center, wider, norm), center, norm))
    decreases |store|
  {
    if |store| != 0 {
      var first := store[0];
      var d := DistanceTo(norm, center, first.city);
      var small, large := Nearby(store[1..], center, radius, norm), Nearby(store[1..], center, wider, norm);
      KeyedNearbyMonotonic(store[1..], center, radius, wider, norm);
      KeyedFirst(first, small, center, norm);
      KeyedFirst(first, large, center, norm);
      if Within(d, radius) {
        WithinWider(d, radius, wider);
      }
    }
  }

  /** Radius monotonicity: every entry found with `radius` is found, with the
      same key, by the same query with any larger radius. */
  lemma SearchMonotonic(store: seq<Entry>, center: City, radius: int, wider: int, norm: Norm)
    requires radius <= wider
    ensures multiset(Search(store, center, radius, norm)) <= multiset(Search(store, center, wider, norm))
  {
    KeyedNearbyMonotonic(store, center, radius, wider, norm);
  }

  /** A stored city at the reference point is found at distance 0 by every
      query with a non-negative radius, under every norm. */
  lemma CenterFound(store: seq<Entry>, center: City, radius: int, norm: Norm, s: Entry)
    requires s in store && s.city.x == center.x && s.city.y == center.y && 0 <= radius
    ensures DistanceTo(norm, center, s.city).IsZero()
    ensures Entry(DistanceTo(norm, center, s.city), s.city) in Search(store, center, radius, norm)
  {
    BoundOfDistance(DistanceTo(norm, center, s.city), radius);
  }

  /** A negative radius finds nothing. */
  lemma NegativeRadiusFindsNothing(store: seq<Entry>, center: City, radius: int, norm: Norm)
    requires radius < 0
    ensures Search(store, center, radius, norm) == []
  {
    forall c: City
      ensures !Within(DistanceTo(norm, center, c), radius)
    {
      BoundOfDistance(DistanceTo(norm, center, c), radius);
    }
    var n := Nearby(store, center, radius, norm);
    assert multiset(n) == multiset{};
    var k := Keyed(n, center, norm);
    assert |multiset(k)| == |k| == |n| == |multiset(n)| == 0;
  }

  /** The norms nest: whatever Manhattan finds within a radius, Euclidean
      finds too, and whatever Euclidean finds, Chebyshev finds too. */
  lemma NormsNest(store: seq<Entry>, center: City, radius: int)
    ensures forall e :: e in Search(store, center, radius, L1)
              ==> Entry(DistanceTo(L2, center, e.city), e.city) in Search(store, center, radius, L2)
    ensures forall e :: e in Search(store, center, radius, L2)
              ==> Entry(DistanceTo(LInf, center, e.city), e.city) in Search(store, center, radius, LInf)
  {
    forall e | e in Search(store, center, radius, L1)
      ensures Entry(DistanceTo(L2, center, e.city), e.city) in Search(store, center, radius, L2)
    {
      var s :| s in store && s.city == e.city;
      NormOrder(center.x, center.y, s.city.x, s.city.y);
      LeTransitive(DistanceTo(L2, center, s.city), DistanceTo(L1, center, s.city), Plain(radius));
    }
    forall e | e in Search(store, center, radius, L2)
      ensures Entry(DistanceTo(LInf, center, e.city), e.city) in Search(store, center, radius, LInf)
    {
      var s :| s in store && s.city == e.city;
      NormOrder(center.x, center.y, s.city.x, s.city.y);
      LeTransitive(DistanceTo(LInf, center, s.city), DistanceTo(L2, center, s.city), Plain(radius));
    }
  }

  /** A city lies north of `center` when its y coordinate is strictly
      smaller. */
  predicate IsNorthOf(city: City, center: City) {
    city.y < center.y
  }

  /** `countNorthernCities`: how many entries of `m` hold a city north of
      `center`. */
  function CountNorthernCities(m: seq<Entry>, center: City): (n: nat)
    ensures n <= |m|
    ensures n == 0 <==> forall e :: e in m ==> !IsNorthOf(e.city, center)
    ensures n == |m| <==> forall e :: e in m ==> IsNorthOf(e.city, center)
  {
    if |m| == 0 then 0
    else
      var last := m[|m| - 1];
      assert m == m[..|m| - 1] + [last];
      CountNorthernCities(m[..|m| - 1], center) + (if IsNorthOf(last.city, center) then 1 else 0)
  }

  /** The count is the number of positions of `m` holding a northern city. */
  lemma {:induction false} CountIsPositionCount(m: seq<Entry>, center: City)
    ensures CountNorthernCities(m, center)
         == |set i | 0 <= i < |m| && IsNorthOf(m[i].city, center)|
  {
    var all := set i | 0 <= i < |m| && IsNorthOf(m[i].city, center);
    if |m| == 0 {
      assert all == {};
    } else {
      var init := m[..|m| - 1];
      CountIsPositionCount(init, center);
      var before := set i | 0 <= i < |init| && IsNorthOf(init[i].city, center);
      if IsNorthOf(m[|m| - 1].city, center) {
        assert all == before + {|m| - 1};
      } else {
        assert all == before;
      }
    }
  }

  /** Counting over a concatenation adds the two counts. */
  lemma {:induction false} CountAppend(p: seq<Entry>, q: seq<Entry>, center: City)
    ensures CountNorthernCities(p + q, center)
         == CountNorthernCities(p, center) + CountNorthernCities(q, center)
    decreases |q|
  {
    if |q| == 0 {
      assert p + q == p;
    } else {
      assert (p + q)[..|p + q| - 1] == p + q[..|q| - 1];
      CountAppend(p, q[..|q| - 1], center);
    }
  }

  /** Removing position `i` from `b` takes away exactly its own share of the
      count. */
  lemma CountRemoveAt(b: seq<Entry>, i: nat, center: City)
    requires i < |b|
    ensures CountNorthernCities(b, center)
         == CountNorthernCities(b[..i] + b[i + 1..], center) + (if IsNorthOf(b[i].city, center) then 1 else 0)
  {
    var before, after := b[..i], b[i + 1..];
    assert b == before + [b[i]] + after;
    CountAppend(before, [b[i]], center);
    CountAppend(before + [b[i]], after, center);
    CountAppend(before, after, center);
  }

  /** Removing position `i` from `b` removes one occurrence of `b[i]`. */
  lemma MultisetRemoveAt(b: seq<Entry>, i: nat)
    requires i < |b|
    ensures multiset(b) == multiset(b[..i] + b[i + 1..]) + multiset{b[i]}
  {
    assert b == b[..i] + [b[i]] + b[i + 1..];
  }

  /** The count depends only on which entries occur, not on their order: a
      sub-multiset never counts more. */
  lemma {:induction false} CountSubMultiset(a: seq<Entry>, b: seq<Entry>, center: City)
    requires multiset(a) <= multiset(b)
    ensures CountNorthernCities(a, center) <= CountNorthernCities(b, center)
    decreases |a|
  {
    if |a| != 0 {
      var x := a[|a| - 1];
      var init := a[..|a| - 1];
      assert multiset(a) == multiset(init) + multiset{x} by {
        assert a == init + [x];
      }
      assert x in multiset(b);
      var i :| 0 <= i < |b| && b[i] == x;
      var rest := b[..i] + b[i + 1..];
      MultisetRemoveAt(b, i);
      assert multiset(init) <= multiset(rest) by {
        forall y ensures multiset(init)[y] <= multiset(rest)[y] {
          assert multiset(a)[y] <= multiset(b)[y];
        }
      }
      CountSubMultiset(init, rest, center);
      CountRemoveAt(b, i, center);
    }
  }

  /** The northern count of a query result never shrinks as the radius
      grows. */
  lemma NorthernCountMonotonic(store: seq<Entry>, center: City, radius: int, wider: int, norm: Norm)
    requires radius <= wider
    ensures CountNorthernCities(Search(store, center, radius, norm), center)
         <= CountNorthernCities(Search(store, center, wider, norm), center)
  {
    SearchMonotonic(store, center, radius, wider, norm);
    CountSubMultiset(Search(store, center, radius, norm), Search(store, center, wider, norm), center);
  }
}

=== FILE: sequences.dfy ===
/** Facts about sequences that the proofs about the reader use. */
module Sequences {

  /** Concatenation is associative. */
  lemma AppendAssociative<T>(a: seq<T>, b: seq<T>, c: seq<T>)
    ensures a + b + c == a + (b + c)
  {
  }
}
